=== FILE: README.md ===
# Profile and comment routes of boo-backend, in Dafny

This project models `routes/profile.js`, the Express router of the boo-backend
personality-profile service. It covers the seven handlers in that file:

- `GET /:id?` reads a profile and its comments. The comments can be filtered
  by `zodiac`, `enneagram` and `mbti`, and are sorted by `created_at`.
- `POST /profile` creates a profile.
- `POST /user` creates a user.
- `POST /:id_profile/addComment` creates a comment.
- `GET /:id_user/comments` lists the comments a user wrote.
- `POST /comment/:id_comment/like/:id_user` and
  `POST /comment/:id_comment/unlike/:id_user` move a comment's counter and the
  user's `likedComments` list.

Each handler is a pure function over an immutable store. The store holds a map
of profiles, a map of users, and the comments collection as a sequence in
natural order. A handler returns an `Outcome`: `BadRequest` or `NotFound` with
the reason it sent, `Ok` with its payload, or `Thrown` when the JavaScript
throws before any response. The writing handlers also return the new store.
Request values that may be `undefined` are `Option<string>`, and JavaScript
truthiness is `Truthy`. The MongoDB operators the handlers use are functions
in module `Store`:

- `findOne` and `find`;
- `insertOne`;
- `updateOne` with `$inc`, `$push` and `$pull`.

Modules follow the program's structure:

- `Documents` (documents.dfy): the three document kinds and truthiness.
- `Seqs` (seqs.dfy): order-preserving selection and `$pull`-style removal.
- `Store` (store.dfy): the collections and the MongoDB operators.
- `CommentQuery` (query.dfy): the profile view's filter and sort.
- `ProfileRoutes` (routes.dfy): the seven handlers.
- `LikeProperties` (likes.dfy): like and unlike across several requests, and a
  store invariant.
- `RouteProperties` (route_properties.dfy): validation order, the two defects
  of the profile view, and the scenario of the route tests.

`ObjectId.isValid` is a parameter `valid: string -> bool` of the handlers that
call it. The current time (`now`) and the id the store assigns on insert
(`newId`) are parameters too. An id passed through `new ObjectId(...)` is the
same string.

## Model

| member | source | states |
|---|---|---|
| Seqs.Select | routes/profile.js:45-54 | `find` by a field and `Array.prototype.filter`: an element is kept exactly when it is in the input and passes the test, and the result is a sub-multiset of the input, never longer |
| Seqs.SelectConcat | routes/profile.js:49-53 | the filter distributes over concatenation, so kept comments stay in their store order |
| Seqs.RemoveAll | routes/profile.js:250 | `$pull` of an id: the id is gone, every other element stays in its order, and each other element's multiplicity is unchanged |
| Seqs.RemoveAllAfterAppend | routes/profile.js:219-250 | a `$pull` undoes a `$push` of an id the list did not hold |
| Store.FindComment | routes/profile.js:207-209 | `findOne` by `_id`: the first comment with that id, and none exactly when no comment has it |
| Store.IncLikes | routes/profile.js:217 | `$inc` on the first comment with that id moves its `likes` by the delta and touches no other comment; a missing id changes nothing |
| Store.PushLiked | routes/profile.js:219 | `$push` appends the id to the user's list, creating the list if the field is absent; other users and a missing user are untouched |
| Store.PullLiked | routes/profile.js:250 | `$pull` removes every occurrence of the id from the user's list and keeps the user's name, creation time and the field itself; other users, a missing user and an absent field are untouched |
| Store.HasLiked | routes/profile.js:212-246 | the `findOne` on `_id` and `likedComments`: a user is found exactly when it exists and its liked list holds the comment id, an absent field holding nothing |
| Store.IncLikesInverse | routes/profile.js:217-248 | an `$inc` by one and then by minus one on the same id restores the comments |
| CommentQuery.Matches | routes/profile.js:50 | the filter callback as written: every comment passes when no filter is supplied, and a passing comment equals each supplied value, the type being read from `mbti` |
| CommentQuery.MatchesIntended | routes/profile.js:50 | the same callback reading the type from the stored `MTBI` field |
| CommentQuery.Filter | routes/profile.js:47-54 | the list as written: a comment is in it exactly when it is among the profile's comments and passes the callback, and no comment appears more often than in the input |
| CommentQuery.FilterIntended | routes/profile.js:47-54 | the same list with the callback reading `MTBI` |
| CommentQuery.FilterIsConjunction | routes/profile.js:47-54 | no filter supplied gives the profile's comments untouched; otherwise a comment is kept iff it equals every supplied filter value; the filter preserves order |
| CommentQuery.FilterIntendedIsConjunction | routes/profile.js:47-54 | the corrected filter: no filter supplied gives the comments untouched; otherwise a comment is kept iff it equals every supplied filter value, the type read from `MTBI`; the filter preserves order |
| CommentQuery.FilterGuardRedundant | routes/profile.js:48 | the guard on the three filter values changes nothing: with no filter every comment passes the callback |
| CommentQuery.MissingFieldNeverMatches | routes/profile.js:50 | a comment lacking a field never passes a supplied filter on that field |
| CommentQuery.Insert | routes/profile.js:56-60 | inserting into a list sorted by the comparator keeps it sorted and adds exactly that comment |
| CommentQuery.SortByCreated | routes/profile.js:56-60 | the sort's result is ordered by the comparator (non-decreasing `created_at` for `asc`, non-increasing otherwise) and is a permutation of its input |
| CommentQuery.InsertStable | routes/profile.js:56-60 | insertion puts the comment ahead of every other with its timestamp and keeps their relative order |
| CommentQuery.SortStable | routes/profile.js:56-60 | the sort is stable: comments with equal `created_at` keep their store order |
| ProfileRoutes.Message | routes/profile.js:30-245 | each refusal carries its non-empty text from the handler's JSON body |
| ProfileRoutes.MessagesDistinct | routes/profile.js:30-245 | no two refusal reasons carry the same text |
| ProfileRoutes.GetProfile | routes/profile.js:24-64 | as written: 400 for a falsy id, then 400 for an invalid one; a valid id with no profile throws, and the 404 is never sent; the answer is a view exactly when the id is truthy, valid and names a profile, and then the view holds exactly the profile's comments that pass the filter reading `mbti`, sorted by the requested direction, as a permutation of the filtered list |
| ProfileRoutes.GetProfileChecked | routes/profile.js:24-64 | corrected: the same checks, a 404 exactly when the profile is missing, never a throw, a view exactly when the id is truthy, valid and names a profile, and that view holds exactly the profile's comments that pass the filter reading the stored `MTBI` field, sorted, as a permutation of the filtered list |
| ProfileRoutes.CreateProfile | routes/profile.js:73-101 | no validation; the new profile holds every attribute as sent, the default image and the creation time; nothing else changes |
| ProfileRoutes.CreateUser | routes/profile.js:104-127 | a 400 exactly when the name is falsy, with no store change; otherwise one new user with that name, the creation time and no `likedComments` field; nothing else changes |
| ProfileRoutes.NewComment | routes/profile.js:151-160 | the inserted document: the new id, the text and both ids as sent, the creation time, zero likes, `MTBI` as sent, no `mbti` field, and `enneagram` and `zodiac` as sent |
| ProfileRoutes.AddComment | routes/profile.js:130-165 | a 400 "URL is incorrect" exactly when `id_profile` is falsy, checked before the body; a 400 "lost crucial information" exactly when the comment or `id_user` is falsy; no store change on refusal; otherwise one comment appended with zero likes, `MTBI` rather than `mbti`, and the classifiers as sent |
| ProfileRoutes.ListUserComments | routes/profile.js:168-187 | a 400 for a falsy, then for an invalid, user id; a list exactly when the id is truthy and valid, and then exactly the user's comments, each from the store; their order is fixed by `RouteProperties.ListUserCommentsInStoreOrder` |
| ProfileRoutes.Like | routes/profile.js:191-221 | checks in order: presence, format, the comment exists, not already liked; each refusal carries its own reason (the 404 is "Comment not found."), leaves the store unchanged and happens exactly under its condition; the like is accepted exactly when both ids are present and valid, the comment exists and the user has not liked it, and acceptance is the `$inc` by one and the `$push` |
| ProfileRoutes.LikeSuccess | routes/profile.js:217-221 | an accepted like answers the pre-read counter plus one, moves only that counter, appends the id exactly once for an existing user, and leaves everything else alone, users included when the user does not exist |
| ProfileRoutes.Unlike | routes/profile.js:227-252 | checks in order: presence only, the comment exists, liked before; each refusal carries its own reason (the 404 is "Comment not found."), leaves the store unchanged and happens exactly under its condition; the unlike is accepted exactly when both ids are present, the comment exists and the user has liked it, and acceptance is the `$inc` by minus one and the `$pull` |
| ProfileRoutes.UnlikeSuccess | routes/profile.js:248-252 | an accepted unlike answers the pre-read counter minus one with no floor at zero, moves only that counter, removes the id from the user's list while keeping the user's name, creation time and field, and leaves everything else alone |
| LikeProperties.PushPullUsers | routes/profile.js:219-250 | a `$push` then `$pull` of an id the user has not liked gives the users back, with an absent field coming back as the empty list |
| LikeProperties.LikedUnlikedStore | routes/profile.js:217-250 | `$inc`/`$push` followed by `$inc`/`$pull` for an existing user restores the comments and the users; a `likedComments` field that was absent comes back as the empty list |
| LikeProperties.LikeAcceptedStep | routes/profile.js:207-221 | with both ids present and well-formed, the comment there and not yet liked, like is accepted, and it is exactly the two updates on the store, answered with the pre-read counter plus one |
| LikeProperties.UnlikeAfterLikeStep | routes/profile.js:239-252 | right after a like, an unlike of the same pair is accepted and answers the counter from before the like |
| LikeProperties.LikeUnlikeRoundTrip | routes/profile.js:191-252 | for an existing user, like then unlike answers `n + 1` then `n` and restores the comments and the users exactly, except that an absent `likedComments` field comes back as the empty list |
| LikeProperties.LikeTwiceRefused | routes/profile.js:212-215 | after an accepted like by an existing user, a second like of the pair is refused and changes nothing |
| LikeProperties.UnknownUserLikesAccumulate | routes/profile.js:212-246 | for a user id with no user, every like is accepted and counts, users are never touched, and an unlike is refused |
| LikeProperties.ConsistentLikesNonNegative | routes/profile.js:248-252 | in a consistent store no counter is negative, so an accepted unlike never answers below zero |
| LikeProperties.IncLikesKeepsIds | routes/profile.js:217 | `$inc` keeps the set of comment ids and their uniqueness |
| LikeProperties.RemoveAllNoDuplicates | routes/profile.js:250 | `$pull` never introduces a repeated entry |
| LikeProperties.LikersAfterPush | routes/profile.js:219 | `$push` adds at most one liker to that comment and none to any other |
| LikeProperties.LikersAfterPull | routes/profile.js:250 | `$pull` by a liker removes exactly that liker and touches no other comment's likers |
| LikeProperties.LikePreservesConsistent | routes/profile.js:191-221 | like keeps the store invariant: unique ids, liked ids that name comments, no repeats, counters at least the number of likers |
| LikeProperties.UnlikePreservesConsistent | routes/profile.js:227-252 | unlike keeps the store invariant |
| LikeProperties.CreateUserPreservesConsistent | routes/profile.js:104-127 | creating a user keeps the store invariant |
| LikeProperties.AddCommentPreservesConsistent | routes/profile.js:130-165 | adding a comment with a new id keeps the store invariant |
| LikeProperties.CreateProfilePreservesConsistent | routes/profile.js:73-101 | creating a profile keeps the store invariant |
| RouteProperties.GetProfileValidatesFirst | routes/profile.js:29-34 | a falsy or invalid id is refused with 400 before the store is consulted: the answer is the same on any store |
| RouteProperties.ListUserCommentsValidatesFirst | routes/profile.js:171-177 | the same for the list of a user's comments |
| RouteProperties.ListUserCommentsInStoreOrder | routes/profile.js:183-187 | the user's comments come back in store order: a collection split in two lists the first part's, then the second part's |
| RouteProperties.ListUserCommentsSingle | routes/profile.js:183-187 | a collection of one comment lists that comment exactly when it is the user's, and nothing otherwise |
| RouteProperties.AddCommentValidatesFirst | routes/profile.js:135-141 | a missing `id_profile` is refused whatever the body holds; every refusal is independent of the store and changes nothing |
| RouteProperties.LikeValidatesFirst | routes/profile.js:195-201 | a missing or invalid id is refused with 400, independent of the store, with no change |
| RouteProperties.UnlikeValidatesFirst | routes/profile.js:231-233 | only presence is checked before the store: a missing id gives 400 with no change, and present ids of any format get past it |
| RouteProperties.GetProfileUnfiltered | routes/profile.js:47-60 | with no filter the view holds all of the profile's comments, reordered |
| RouteProperties.GetProfileMissingProfileThrows | routes/profile.js:44-64 | as written, a valid id without a profile throws; the corrected handler answers 404 |
| RouteProperties.GetProfileCheckedAgrees | routes/profile.js:44-64 | without an `mbti` filter the corrected handler answers exactly as the written one wherever the written one does not throw |
| RouteProperties.NoMbtiFieldKept | routes/profile.js:150-160 | addComment, like and unlike never give any comment an `mbti` field |
| RouteProperties.IncLikesKeepsNoMbti | routes/profile.js:217 | `$inc` on the counter never gives a comment an `mbti` field |
| RouteProperties.MbtiFilterMatchesNothing | routes/profile.js:50 | as written, a supplied `mbti` filter empties the view of every comment addComment created |
| RouteProperties.MbtiFilterIntendedFindsNewComment | routes/profile.js:150-160 | a new comment whose `MTBI` equals the `mbti` filter is shown by the corrected handler and hidden by the written one |
| RouteProperties.LikeCycle | routes/profile.js:191-256 | like, like, unlike, unlike of a fresh pair answers `n + 1`, already liked, `n` with the comments restored, and not liked |
| RouteProperties.ScenarioSetup | tests/routes.test.mjs:128-149 | after creating a profile, a user and a comment, the comment is the profile's only comment, has the posted fields and is not liked by the user |
| RouteProperties.ScenarioUnliked | tests/routes.test.mjs:128-149 | after those creations the user exists, has not liked the comment, and the comment is found with zero likes |
| RouteProperties.SingleCommentView | routes/profile.js:44-64 | a valid id naming a profile whose only comment is `c` is answered, without filters, with the profile and exactly `[c]` |
| RouteProperties.ScenarioView | tests/routes.test.mjs:128-149 | in that scenario the unfiltered profile view holds exactly the new comment |
| RouteProperties.ScenarioLikes | tests/routes.test.mjs:150-158 | in that scenario a like answers 1, a second like is refused as already liked, an unlike answers 0, and a second unlike is refused as not liked |
| RouteProperties.ScenarioFromTests | tests/routes.test.mjs:128-158 | in that scenario the profile view shows the new comment, a like answers 1, a second like is refused, an unlike answers 0, and a second unlike is refused |

## Left out

- Express routing, the JSON bodies' `success` flags and the EJS render (routes/profile.js:68-70): an outcome carries only the status kind, the refusal reason (with its text in `ProfileRoutes.Message`) and the payload.
- The database connection (`connect()` in database/conn.js): the store is an in-memory value. database/conn.js is not part of this model.
- `ObjectId.isValid` and `new ObjectId(...)`: a foreign library, modelled by the parameter `valid`. The conversion is the identity, so ObjectId case-folding and 12-byte string ids are not modelled.
- `ProfileRoutes.AddComment`: the throw of `new ObjectId(...)` on a malformed `id_user` or `id_profile` (routes/profile.js:153, 155) is not modelled; the model stores the id as given and answers 201.
- `ProfileRoutes.Unlike`: the throw of `new ObjectId(...)` on a malformed id is not modelled. The source answers 500 from its `catch` for a malformed `id_comment` (routes/profile.js:239) and, when the comment exists, for a malformed `id_user` (routes/profile.js:243). The model looks a malformed `id_comment` up, finds no comment and answers 404; for a malformed `id_user` it answers 400 "You have not liked this comment before.", or accepts the unlike if a user is stored under that string.
- The 500 answer of the `catch` blocks in like and unlike (routes/profile.js:222-224, 253-255) and its `message.error` text: every failure that reaches them comes from the driver or the `ObjectId` library.
- The clock and id generation: `new Date()` is the integer parameter `now`, and `insertedId` is the parameter `newId`. Callers must supply an id the collection does not hold yet. The user's and the profile's `created_at` Date objects are that same integer.
- Concurrency: each handler is one atomic step. The guard-then-update race in like and unlike, which can repeat a like or drive a counter below zero under concurrent requests, is outside the model.
- JSON value types: request values are strings or missing, and `==` on them is string equality. Numbers, arrays or objects sent in a query or body are not modelled.
- `RouteProperties.ScenarioFromTests`: the unfiltered profile read (also in `RouteProperties.ScenarioView`) and the repeated like and unlike (also in `RouteProperties.ScenarioLikes`) are added to the tests' scenario. The tests themselves only post a like and then an unlike and check that each answers with a number.

## Findings

| source | as written | input that shows it | evidently intended | confidence | as-written member | corrected member |
|---|---|---|---|---|---|---|
| routes/profile.js:47-64 | the comments are attached to `profile` (line 47) before the `!profile` check (line 62), so a missing profile throws a TypeError and the 404 is never sent | `GET /<valid ObjectId with no profile>` | answer 404 "Not Found" for a valid id without a profile | high; not executed | RouteProperties.GetProfileMissingProfileThrows | ProfileRoutes.GetProfileChecked |
| routes/profile.js:50-156 | the `mbti` filter compares `comment.mbti` (line 50), while addComment stores the value under `MTBI` (line 156), so a supplied `mbti` matches no comment the service created | addComment with `MTBI: 'INTP'`, then `GET /<profile>?mbti=INTP` | the filter keeps the comments whose stored type equals the filter | high; not executed | RouteProperties.MbtiFilterMatchesNothing | RouteProperties.MbtiFilterIntendedFindsNewComment |

=== FILE: documents.dfy ===
/**
 The documents of the profile/comment service: profiles, users and comments as
 they sit in the document store, and the JavaScript notion of a "present"
 request value that every handler's validation is written in.
 */
module Documents {

  /** An identifier token. Store-generated ids and the ids a client sends in a
      URL are both plain strings here (see README, "Left out"). */
  type Id = string

  /** A value that may be `undefined`: a missing route parameter, query
      parameter, body field or document field. */
  datatype Option<+T> = None | Some(value: T)

  /** JavaScript truthiness of an optional string: `undefined` and the empty
      string are falsy, every other string is truthy. */
  predicate Truthy(v: Option<string>)
  {
    v.Some? && v.value != ""
  }

  /** The image every new profile is given, whatever the request says. */
  const DefaultImage: string := "https://soulverse.boo.world/images/1.png"

  /** A profile document. Every personality attribute is copied from the
      request body as-is, so each may be missing. */
  datatype Profile = Profile(
    name: Option<string>,
    description: Option<string>,
    mbti: Option<string>,
    enneagram: Option<string>,
    variant: Option<string>,
    tritype: Option<string>,
    socionics: Option<string>,
    sloan: Option<string>,
    psyche: Option<string>,
    image: string,
    createdAt: int)

  /** A user document. `likedComments` is absent until the first like pushes
      onto it; its entries are comment ids in the string form of the URL. */
  datatype User = User(name: string, createdAt: int, likedComments: Option<seq<Id>>)

  /** A comment document. `MTBI` is the classifier field addComment writes;
      `mbti` is the differently spelled field the profile view filters on,
      which nothing in the service ever writes. `createdAt` is the creation
      time in milliseconds, the number `Date` subtraction yields. */
  datatype Comment = Comment(
    id: Id,
    text: string,
    idUser: Id,
    idProfile: Id,
    createdAt: int,
    MTBI: Option<string>,
    mbti: Option<string>,
    enneagram: Option<string>,
    zodiac: Option<string>,
    likes: int)

  /** The list of comment ids a user has liked, reading an absent field as the
      empty list. */
  function Liked(u: User): seq<Id>
  {
    match u.likedComments
    case None => []
    case Some(l) => l
  }
}

=== FILE: likes.dfy ===
/**
 What like and unlike do across several requests: the round trip, the
 duplicate-like guard, the likes an unknown user leaves behind, and a store
 invariant under which a counter never drops below zero.
 */
module LikeProperties {
  import opened Documents
  import opened Seqs
  import opened Store
  import opened ProfileRoutes

  /** The conditions under which like accepts this pair on this store: both
      ids present and well-formed, the comment there, and not yet liked. */
  predicate LikeAccepted(st: Store, cid: Id, uid: Id, valid: string -> bool)
  {
    && cid != "" && uid != "" && valid(cid) && valid(uid)
    && FindComment(st.comments, cid).Some?
    && !HasLiked(st.users, uid, cid)
  }

  /** `$push` then `$pull` of the same id, for a user that exists and has
      not liked it, gives the users back; a field that was absent comes back
      as the empty list. */
  lemma PushPullUsers(users: map<Id, User>, uid: Id, cid: Id)
    requires uid in users && !HasLiked(users, uid, cid)
    ensures var after := PullLiked(PushLiked(users, uid, cid), uid, cid);
      && after.Keys == users.Keys
      && Liked(after[uid]) == Liked(users[uid])
      && (users[uid].likedComments.Some? ==> after == users)
      && (users[uid].likedComments.None? ==>
            after == users[uid := users[uid].(likedComments := Some([]))])
  {
    var l := Liked(users[uid]);
    var mid := PushLiked(users, uid, cid);
    var after := PullLiked(mid, uid, cid);
    assert mid[uid].likedComments == Some(l + [cid]);
    assert cid !in l;
    RemoveAllAfterAppend(l, cid);
    assert after[uid] == users[uid].(likedComments := Some(l));
    var restored := if users[uid].likedComments.Some? then users
                    else users[uid := users[uid].(likedComments := Some([]))];
    assert restored[uid] == after[uid];
    assert forall v :: v in after ==> after[v] == restored[v];
  }

  /** `$inc` up then down gives the comments back, and the users come back as
      `PushPullUsers` describes. */
  lemma LikedUnlikedStore(st: Store, cid: Id, uid: Id)
    requires uid in st.users && !HasLiked(st.users, uid, cid)
    ensures var s2 := UnlikedStore(LikedStore(st, cid, uid), cid, uid);
      && s2.comments == st.comments
      && s2.profiles == st.profiles
      && s2.users.Keys == st.users.Keys
      && Liked(s2.users[uid]) == Liked(st.users[uid])
      && (st.users[uid].likedComments.Some? ==> s2.users == st.users)
      && (st.users[uid].likedComments.None? ==>
            s2.users == st.users[uid := st.users[uid].(likedComments := Some([]))])
  {
    IncLikesInverse(st.comments, cid, 1);
    PushPullUsers(st.users, uid, cid);
  }

  /** An accepted like is the `$inc` and `$push` on the store, answered
      with the pre-read counter plus one. */
  lemma LikeAcceptedStep(st: Store, cid: Id, uid: Id, valid: string -> bool)
    requires LikeAccepted(st, cid, uid, valid)
    ensures Like(st, Some(cid), Some(uid), valid).outcome.Ok?
    ensures Like(st, Some(cid), Some(uid), valid)
         == Step(Ok(st.comments[FindComment(st.comments, cid).value].likes + 1), LikedStore(st, cid, uid))
  {
    assert BothPresent(Some(cid), Some(uid)) && valid(uid) && valid(cid);
  }

  /** Right after a like by an existing user, an unlike of the same pair is
      accepted and answers the counter from before the like. */
  lemma UnlikeAfterLikeStep(st: Store, cid: Id, uid: Id)
    requires uid in st.users && cid != "" && uid != ""
    requires FindComment(st.comments, cid).Some? && !HasLiked(st.users, uid, cid)
    ensures var s1 := LikedStore(st, cid, uid);
      Unlike(s1, Some(cid), Some(uid))
        == Step(Ok(st.comments[FindComment(st.comments, cid).value].likes), UnlikedStore(s1, cid, uid))
  {
    var k := FindComment(st.comments, cid).value;
    var s1 := LikedStore(st, cid, uid);
    FindCommentByIds(st.comments, s1.comments, cid);
    assert s1.comments[k].likes == st.comments[k].likes + 1;
    assert HasLiked(s1.users, uid, cid);
  }

  /** For a user that exists, a like followed by an unlike of the same pair
      answers with the original count and restores the comments; the user's
      list is restored too, and every other user is as before; a field that
      was absent comes back as the empty list, since `$pull` leaves an empty
      array behind. */
  lemma LikeUnlikeRoundTrip(st: Store, cid: Id, uid: Id, valid: string -> bool)
    requires uid in st.users
    requires LikeAccepted(st, cid, uid, valid)
    ensures FindComment(st.comments, cid).Some?
    ensures var liked := Like(st, Some(cid), Some(uid), valid);
      var unliked := Unlike(liked.store, Some(cid), Some(uid));
      var before := st.comments[FindComment(st.comments, cid).value].likes;
      && liked.outcome == Ok(before + 1)
      && unliked.outcome == Ok(before)
      && unliked.store.comments == st.comments
      && unliked.store.profiles == st.profiles
      && unliked.store.users.Keys == st.users.Keys
      && uid in unliked.store.users
      && Liked(unliked.store.users[uid]) == Liked(st.users[uid])
      && (st.users[uid].likedComments.Some? ==> unliked.store.users == st.users)
      && (st.users[uid].likedComments.None? ==>
            unliked.store.users == st.users[uid := st.users[uid].(likedComments := Some([]))])
  {
    LikeAcceptedStep(st, cid, uid, valid);
    UnlikeAfterLikeStep(st, cid, uid);
    LikedUnlikedStore(st, cid, uid);
  }

  /** For a user that exists, a second like of the same pair is refused and
      changes nothing. */
  lemma LikeTwiceRefused(st: Store, cid: Id, uid: Id, valid: string -> bool)
    requires uid in st.users
    requires LikeAccepted(st, cid, uid, valid)
    ensures var s1 := Like(st, Some(cid), Some(uid), valid).store;
      Like(s1, Some(cid), Some(uid), valid) == Step(BadRequest(AlreadyLiked), s1)
  {
    var s1 := LikedStore(st, cid, uid);
    FindCommentByIds(st.comments, s1.comments, cid);
    assert HasLiked(s1.users, uid, cid);
  }

  /** For a user id with no user behind it, every like succeeds and moves the
      counter, the users are never touched, and an unlike is refused: the
      counter keeps the extra like. */
  lemma UnknownUserLikesAccumulate(st: Store, cid: Id, uid: Id, valid: string -> bool)
    requires uid !in st.users
    requires LikeAccepted(st, cid, uid, valid)
    ensures FindComment(st.comments, cid).Some?
    ensures var s1 := Like(st, Some(cid), Some(uid), valid).store;
      var again := Like(s1, Some(cid), Some(uid), valid);
      var k := FindComment(st.comments, cid).value;
      && s1.users == st.users
      && again.outcome == Ok(st.comments[k].likes + 2)
      && |again.store.comments| == |st.comments|
      && again.store.comments[k].likes == st.comments[k].likes + 2
      && Unlike(again.store, Some(cid), Some(uid)) == Step(BadRequest(NotLiked), again.store)
  {
    var k := FindComment(st.comments, cid).value;
    var s1 := LikedStore(st, cid, uid);
    assert Like(st, Some(cid), Some(uid), valid) == Step(Ok(st.comments[k].likes + 1), s1);
    FindCommentByIds(st.comments, s1.comments, cid);
    assert s1.users == st.users;
    var s2 := LikedStore(s1, cid, uid);
    FindCommentByIds(s1.comments, s2.comments, cid);
    assert Like(s1, Some(cid), Some(uid), valid) == Step(Ok(st.comments[k].likes + 2), s2);
  }

  /** No two comments share an id. */
  predicate UniqueIds(cs: seq<Comment>)
  {
    forall i, j :: 0 <= i < j < |cs| ==> cs[i].id != cs[j].id
  }

  /** The ids of the comments in the collection. */
  function CommentIds(cs: seq<Comment>): set<Id>
  {
    set c | c in cs :: c.id
  }

  /** The users whose liked list holds `cid`. */
  function Likers(users: map<Id, User>, cid: Id): set<Id>
  {
    set u | u in users && cid in Liked(users[u])
  }

  /** The store invariant the handlers keep when requests run one at a time:
      comment ids are unique, every liked id names a comment, no liked list
      repeats an entry, and a comment's counter is at least the number of
      users who list it. The counter may exceed that number, because a like
      by an unknown user counts without being listed. */
  predicate Consistent(st: Store)
  {
    && UniqueIds(st.comments)
    && (forall u, x :: u in st.users && x in Liked(st.users[u]) ==> x in CommentIds(st.comments))
    && (forall u :: u in st.users ==> NoDuplicates(Liked(st.users[u])))
    && (forall k :: 0 <= k < |st.comments| ==> st.comments[k].likes >= |Likers(st.users, st.comments[k].id)|)
  }

  /** In a consistent store no counter is negative, so the unguarded `-1` of
      unlike never goes below zero while requests run one at a time. */
  lemma ConsistentLikesNonNegative(st: Store, cid: Id, uid: Id)
    requires Consistent(st)
    ensures forall k :: 0 <= k < |st.comments| ==> st.comments[k].likes >= 0
    ensures var r := Unlike(st, Some(cid), Some(uid)); r.outcome.Ok? ==> r.outcome.value >= 0
  {
    var r := Unlike(st, Some(cid), Some(uid));
    if r.outcome.Ok? {
      var k := FindComment(st.comments, cid).value;
      assert uid in Likers(st.users, st.comments[k].id);
      assert |Likers(st.users, st.comments[k].id)| >= 1;
    }
  }

  /** `$inc` never changes which ids the collection holds. */
  lemma IncLikesKeepsIds(cs: seq<Comment>, id: Id, delta: int)
    ensures CommentIds(IncLikes(cs, id, delta)) == CommentIds(cs)
    ensures UniqueIds(cs) ==> UniqueIds(IncLikes(cs, id, delta))
  {
    var r := IncLikes(cs, id, delta);
    forall x | x in CommentIds(cs) ensures x in CommentIds(r) {
      var c :| c in cs && c.id == x;
      var j :| 0 <= j < |cs| && cs[j] == c;
      assert r[j] in r;
    }
    forall x | x in CommentIds(r) ensures x in CommentIds(cs) {
      var c :| c in r && c.id == x;
      var j :| 0 <= j < |r| && r[j] == c;
      assert cs[j] in cs;
    }
  }

  /** `$pull` never introduces a repeat. */
  lemma {:induction false} RemoveAllNoDuplicates(s: seq<Id>, x: Id)
    requires NoDuplicates(s)
    ensures NoDuplicates(RemoveAll(s, x))
  {
    if |s| > 0 {
      RemoveAllNoDuplicates(s[1..], x);
      if s[0] != x {
        assert s[0] !in s[1..];
        var rest := RemoveAll(s[1..], x);
        assert s[0] !in rest;
        assert RemoveAll(s, x) == [s[0]] + rest;
      }
    }
  }

  /** A `$push` of `cid` adds at most its user to the likers of `cid` and
      leaves the likers of every other id alone. */
  lemma LikersAfterPush(users: map<Id, User>, uid: Id, cid: Id, x: Id)
    ensures x != cid ==> Likers(PushLiked(users, uid, cid), x) == Likers(users, x)
    ensures |Likers(PushLiked(users, uid, cid), x)| <= |Likers(users, x)| + 1
  {
    var after := PushLiked(users, uid, cid);
    assert Likers(after, x) <= Likers(users, x) + {uid};
    SubsetCardinality(Likers(after, x), Likers(users, x) + {uid});
  }

  /** A `$pull` of `cid` by one of its likers removes exactly that liker and
      leaves the likers of every other id alone. */
  lemma LikersAfterPull(users: map<Id, User>, uid: Id, cid: Id, x: Id)
    requires HasLiked(users, uid, cid)
    ensures x != cid ==> Likers(PullLiked(users, uid, cid), x) == Likers(users, x)
    ensures x == cid ==> |Likers(PullLiked(users, uid, cid), x)| == |Likers(users, x)| - 1
  {
    var after := PullLiked(users, uid, cid);
    if x == cid {
      assert uid in Likers(users, x);
      assert Likers(after, x) == Likers(users, x) - {uid};
    }
  }

  lemma SubsetCardinality(a: set<Id>, b: set<Id>)
    requires a <= b
    ensures |a| <= |b|
  {
    assert b == a + (b - a);
  }

  lemma LikePreservesConsistent(st: Store, cid: Option<string>, uid: Option<string>, valid: string -> bool)
    requires Consistent(st)
    ensures Consistent(Like(st, cid, uid, valid).store)
  {
    var r := Like(st, cid, uid, valid);
    if r.outcome.Ok? {
      var c, u := cid.value, uid.value;
      var k := FindComment(st.comments, c).value;
      var s2 := LikedStore(st, c, u);
      assert r.store == s2;
      IncLikesKeepsIds(st.comments, c, 1);
      assert c in CommentIds(st.comments) by { assert st.comments[k] in st.comments; }
      forall v | v in s2.users ensures NoDuplicates(Liked(s2.users[v])) {
        if v == u {
          var l := Liked(st.users[u]);
          assert Liked(s2.users[v]) == l + [c];
          assert c !in l;
        }
      }
      forall j | 0 <= j < |s2.comments|
        ensures s2.comments[j].likes >= |Likers(s2.users, s2.comments[j].id)|
      {
        LikersAfterPush(st.users, u, c, st.comments[j].id);
        if j != k {
          assert st.comments[j].id != c;
        }
      }
    }
  }

  lemma UnlikePreservesConsistent(st: Store, cid: Option<string>, uid: Option<string>)
    requires Consistent(st)
    ensures Consistent(Unlike(st, cid, uid).store)
  {
    var r := Unlike(st, cid, uid);
    if r.outcome.Ok? {
      var c, u := cid.value, uid.value;
      var k := FindComment(st.comments, c).value;
      var s2 := UnlikedStore(st, c, u);
      assert r.store == s2;
      IncLikesKeepsIds(st.comments, c, -1);
      forall v | v in s2.users ensures NoDuplicates(Liked(s2.users[v])) {
        if v == u {
          RemoveAllNoDuplicates(Liked(st.users[u]), c);
        }
      }
      forall j | 0 <= j < |s2.comments|
        ensures s2.comments[j].likes >= |Likers(s2.users, s2.comments[j].id)|
      {
        LikersAfterPull(st.users, u, c, st.comments[j].id);
        if j != k {
          assert st.comments[j].id != c;
        }
      }
    }
  }

  lemma CreateUserPreservesConsistent(st: Store, name: Option<string>, now: int, newId: Id)
    requires newId !in st.users
    requires Consistent(st)
    ensures Consistent(CreateUser(st, name, now, newId).store)
  {
    var s2 := CreateUser(st, name, now, newId).store;
    forall x | true ensures Likers(s2.users, x) == Likers(st.users, x) {
    }
  }

  lemma AddCommentPreservesConsistent(st: Store, idProfile: Option<string>, body: CommentBody, now: int, newId: Id)
    requires forall i :: 0 <= i < |st.comments| ==> st.comments[i].id != newId
    requires Consistent(st)
    ensures Consistent(AddComment(st, idProfile, body, now, newId).store)
  {
    var r := AddComment(st, idProfile, body, now, newId);
    if r.outcome.Ok? {
      var s2 := r.store;
      var n := |st.comments|;
      assert s2.comments == st.comments + [s2.comments[n]];
      assert newId !in CommentIds(st.comments);
      assert CommentIds(st.comments) <= CommentIds(s2.comments) by {
        forall x | x in CommentIds(st.comments) ensures x in CommentIds(s2.comments) {
          var c :| c in st.comments && c.id == x;
          assert c in s2.comments;
        }
      }
      assert Likers(s2.users, newId) == {};
    }
  }

  lemma CreateProfilePreservesConsistent(st: Store, f: ProfileFields, now: int, newId: Id)
    requires newId !in st.profiles
    requires Consistent(st)
    ensures Consistent(CreateProfile(st, f, now, newId).store)
  {
  }
}

=== FILE: query.dfy ===
/**
 The comment list of the profile view: the optional `zodiac` / `enneagram` /
 `mbti` filters and the `created_at` sort of routes/profile.js.
 */
module CommentQuery {
  import opened Documents
  import opened Seqs

  /** The query string of `GET /:id`. */
  datatype Query = Query(zodiac: Option<string>, enneagram: Option<string>, mbti: Option<string>, sort: Option<string>)

  /** The filter is applied only when one of the three filter values is truthy. */
  predicate AnyFilter(q: Query)
  {
    Truthy(q.zodiac) || Truthy(q.enneagram) || Truthy(q.mbti)
  }

  /** Equality against one supplied filter value; an unsupplied (falsy) value
      constrains nothing. */
  predicate Constrains(field: Option<string>, filter: Option<string>)
  {
    !Truthy(filter) || field == filter
  }

  /** The filter callback as written: the third test reads the comment's
      `mbti` field. */
  predicate Matches(c: Comment, q: Query): (b: bool)
    ensures !AnyFilter(q) ==> b
    ensures b && Truthy(q.mbti) ==> c.mbti == q.mbti
    ensures b && Truthy(q.zodiac) ==> c.zodiac == q.zodiac
    ensures b && Truthy(q.enneagram) ==> c.enneagram == q.enneagram
  {
    Constrains(c.zodiac, q.zodiac) && Constrains(c.enneagram, q.enneagram) && Constrains(c.mbti, q.mbti)
  }

  /** The filter callback with the third test reading the `MTBI` field that
      addComment actually stores. */
  predicate MatchesIntended(c: Comment, q: Query): (b: bool)
    ensures !AnyFilter(q) ==> b
    ensures b && Truthy(q.mbti) ==> c.MTBI == q.mbti
    ensures b && Truthy(q.zodiac) ==> c.zodiac == q.zodiac
    ensures b && Truthy(q.enneagram) ==> c.enneagram == q.enneagram
  {
    Constrains(c.zodiac, q.zodiac) && Constrains(c.enneagram, q.enneagram) && Constrains(c.MTBI, q.mbti)
  }

  function MatchesQuery(q: Query): Comment -> bool
  {
    (c: Comment) => Matches(c, q)
  }

  function MatchesQueryIntended(q: Query): Comment -> bool
  {
    (c: Comment) => MatchesIntended(c, q)
  }

  /** The comment list as written: filtered only when some filter is supplied. */
  function Filter(cs: seq<Comment>, q: Query): (r: seq<Comment>)
    ensures forall c :: c in r <==> c in cs && Matches(c, q)
    ensures multiset(r) <= multiset(cs)
  {
    if AnyFilter(q) then Select(cs, MatchesQuery(q)) else cs
  }

  /** The same list read through the `MTBI` field. */
  function FilterIntended(cs: seq<Comment>, q: Query): (r: seq<Comment>)
    ensures forall c :: c in r <==> c in cs && MatchesIntended(c, q)
    ensures multiset(r) <= multiset(cs)
  {
    if AnyFilter(q) then Select(cs, MatchesQueryIntended(q)) else cs
  }

  /** With no filter supplied the list is the profile's comments, untouched;
      otherwise a comment is kept exactly when it equals every supplied
      filter value, and the kept comments stay in store order. */
  lemma FilterIsConjunction(cs: seq<Comment>, more: seq<Comment>, q: Query)
    ensures !AnyFilter(q) ==> Filter(cs, q) == cs
    ensures forall c :: c in Filter(cs, q) <==>
      && c in cs
      && (Truthy(q.zodiac) ==> c.zodiac == q.zodiac)
      && (Truthy(q.enneagram) ==> c.enneagram == q.enneagram)
      && (Truthy(q.mbti) ==> c.mbti == q.mbti)
    ensures Filter(cs + more, q) == Filter(cs, q) + Filter(more, q)
  {
    if AnyFilter(q) {
      SelectConcat(cs, more, MatchesQuery(q));
    }
  }

  /** The corrected filter is the same conjunction with the type read from
      the stored `MTBI` field, and it keeps store order too. */
  lemma FilterIntendedIsConjunction(cs: seq<Comment>, more: seq<Comment>, q: Query)
    ensures !AnyFilter(q) ==> FilterIntended(cs, q) == cs
    ensures forall c :: c in FilterIntended(cs, q) <==>
      && c in cs
      && (Truthy(q.zodiac) ==> c.zodiac == q.zodiac)
      && (Truthy(q.enneagram) ==> c.enneagram == q.enneagram)
      && (Truthy(q.mbti) ==> c.MTBI == q.mbti)
    ensures FilterIntended(cs + more, q) == FilterIntended(cs, q) + FilterIntended(more, q)
  {
    if AnyFilter(q) {
      SelectConcat(cs, more, MatchesQueryIntended(q));
    }
  }

  /** The `zodiac || enneagram || mbti` guard is redundant: with no filter
      supplied every comment matches anyway. */
  lemma FilterGuardRedundant(cs: seq<Comment>, q: Query)
    ensures Filter(cs, q) == Select(cs, MatchesQuery(q))
  {
    if !AnyFilter(q) {
      SelectAll(cs, MatchesQuery(q));
    }
  }

  /** A comment whose field is missing never passes a supplied filter on it. */
  lemma MissingFieldNeverMatches(c: Comment, q: Query)
    ensures Truthy(q.zodiac) && c.zodiac.None? ==> !Matches(c, q)
    ensures Truthy(q.enneagram) && c.enneagram.None? ==> !Matches(c, q)
    ensures Truthy(q.mbti) && c.mbti.None? ==> !Matches(c, q)
  {
  }

  /** `sort == 'asc'` selects the ascending order; anything else, absent
      included, the descending one. */
  predicate Ascending(q: Query)
  {
    q.sort == Some("asc")
  }

  /** The sort key: `created_at` for the ascending comparator
      `a.created_at - b.created_at`, its negation for the descending one
      `b.created_at - a.created_at`. */
  function Rank(c: Comment, asc: bool): int
  {
    if asc then c.createdAt else -c.createdAt
  }

  /** `a` may stand before `b`: the comparator is not positive. */
  predicate Precedes(a: Comment, b: Comment, asc: bool)
  {
    Rank(a, asc) <= Rank(b, asc)
  }

  predicate SortedBy(s: seq<Comment>, asc: bool)
  {
    forall i, j :: 0 <= i < j < |s| ==> Precedes(s[i], s[j], asc)
  }

  /** Inserts `x` in front of the first element it may precede, so that it
      lands before every element with the same timestamp. */
  function Insert(x: Comment, s: seq<Comment>, asc: bool): (r: seq<Comment>)
    requires SortedBy(s, asc)
    ensures SortedBy(r, asc)
    ensures multiset(r) == multiset(s) + multiset{x}
    ensures forall y :: y in r ==> y == x || y in s
  {
    if |s| == 0 then [x]
    else if Precedes(x, s[0], asc) then
      assert forall j :: 0 <= j < |s| ==> Precedes(x, s[j], asc) by {
        assert forall j :: 0 < j < |s| ==> Precedes(s[0], s[j], asc);
      }
      ConsSorted(x, s, asc);
      [x] + s
    else
      var rest := Insert(x, s[1..], asc);
      InsertBehindHead(x, s, rest, asc);
      [s[0]] + rest
  }

  /** The recursive step of `Insert`: the head stays in front of the list
      that `x` was inserted into. */
  lemma InsertBehindHead(x: Comment, s: seq<Comment>, rest: seq<Comment>, asc: bool)
    requires |s| > 0 && SortedBy(s, asc) && !Precedes(x, s[0], asc)
    requires SortedBy(rest, asc)
    requires multiset(rest) == multiset(s[1..]) + multiset{x}
    requires forall y :: y in rest ==> y == x || y in s[1..]
    ensures SortedBy([s[0]] + rest, asc)
    ensures multiset([s[0]] + rest) == multiset(s) + multiset{x}
    ensures forall y :: y in [s[0]] + rest ==> y == x || y in s
  {
    assert s == [s[0]] + s[1..];
    assert forall j :: 0 <= j < |rest| ==> Precedes(s[0], rest[j], asc) by {
      forall j | 0 <= j < |rest|
        ensures Precedes(s[0], rest[j], asc)
      {
        assert rest[j] in rest;
      }
    }
    ConsSorted(s[0], rest, asc);
  }

  /** A comment that may precede every element of a sorted list may stand in
      front of it. */
  lemma ConsSorted(a: Comment, t: seq<Comment>, asc: bool)
    requires SortedBy(t, asc)
    requires forall j :: 0 <= j < |t| ==> Precedes(a, t[j], asc)
    ensures SortedBy([a] + t, asc)
  {
    var s := [a] + t;
    forall i, j | 0 <= i < j < |s|
      ensures Precedes(s[i], s[j], asc)
    {
      assert s[j] == t[j - 1];
      if i > 0 {
        assert s[i] == t[i - 1];
      }
    }
  }

  /** `Array.prototype.sort` with the route's comparator. The sort is stable,
      and a stable sort by a total preorder has exactly one result, so this
      insertion sort computes the same list. */
  function SortByCreated(s: seq<Comment>, asc: bool): (r: seq<Comment>)
    ensures SortedBy(r, asc)
    ensures multiset(r) == multiset(s)
  {
    if |s| == 0 then []
    else
      assert s == [s[0]] + s[1..];
      Insert(s[0], SortByCreated(s[1..], asc), asc)
  }

  /** The comments with one given timestamp. */
  function CreatedAt(t: int): Comment -> bool
  {
    (c: Comment) => c.createdAt == t
  }

  /** Inserting `x` puts it ahead of every element sharing its timestamp. */
  lemma {:induction false} InsertStable(x: Comment, s: seq<Comment>, asc: bool, t: int)
    requires SortedBy(s, asc)
    ensures Select(Insert(x, s, asc), CreatedAt(t))
         == (if x.createdAt == t then [x] else []) + Select(s, CreatedAt(t))
  {
    if |s| == 0 {
      SelectCons(x, [], CreatedAt(t));
    } else if Precedes(x, s[0], asc) {
      SelectCons(x, s, CreatedAt(t));
    } else {
      InsertStable(x, s[1..], asc, t);
      InsertPastHead(x, s, asc, t);
    }
  }

  /** The step of `InsertStable` where `x` travels past the head of `s`: the
      head has a different timestamp, so the two never swap among equals. */
  lemma InsertPastHead(x: Comment, s: seq<Comment>, asc: bool, t: int)
    requires SortedBy(s, asc) && |s| > 0 && !Precedes(x, s[0], asc)
    requires Select(Insert(x, s[1..], asc), CreatedAt(t))
          == (if x.createdAt == t then [x] else []) + Select(s[1..], CreatedAt(t))
    ensures Select(Insert(x, s, asc), CreatedAt(t))
         == (if x.createdAt == t then [x] else []) + Select(s, CreatedAt(t))
  {
    InsertSkipsHead(x, s, asc);
    SelectPastHead(s[0], x, Insert(x, s[1..], asc), s[1..], CreatedAt(t));
  }

  /** `x` travels past a head it may not precede, and that head has another
      timestamp. */
  lemma InsertSkipsHead(x: Comment, s: seq<Comment>, asc: bool)
    requires SortedBy(s, asc) && |s| > 0 && !Precedes(x, s[0], asc)
    ensures Insert(x, s, asc) == [s[0]] + Insert(x, s[1..], asc)
    ensures s == [s[0]] + s[1..]
    ensures x.createdAt != s[0].createdAt
  {
  }

  /** The sort is stable: comments with equal `created_at` keep their store
      order. */
  lemma {:induction false} SortStable(s: seq<Comment>, asc: bool, t: int)
    ensures Select(SortByCreated(s, asc), CreatedAt(t)) == Select(s, CreatedAt(t))
  {
    if |s| > 0 {
      SortStable(s[1..], asc, t);
      InsertStable(s[0], SortByCreated(s[1..], asc), asc, t);
    }
  }
}

=== FILE: route_properties.dfy ===
/**
 Properties of the handlers that span the store or several requests: every
 validation answer is given before the store is consulted, the two defects
 of the profile view, and the create-then-read-then-like scenario of the
 route tests.
 */
module RouteProperties {
  import opened Documents
  import opened Seqs
  import opened Store
  import opened CommentQuery
  import opened ProfileRoutes
  import opened LikeProperties

  /** A refused profile read answers alike on any two stores: both checks on
      `id` come before the store is consulted. */
  lemma GetProfileValidatesFirst(st1: Store, st2: Store, id: Option<string>, q: Query, valid: string -> bool)
    requires !Truthy(id) || !valid(id.value)
    ensures GetProfile(st1, id, q, valid).BadRequest?
    ensures GetProfile(st1, id, q, valid) == GetProfile(st2, id, q, valid)
  {
  }

  /** The same for the list of a user's comments. */
  lemma ListUserCommentsValidatesFirst(st1: Store, st2: Store, idUser: Option<string>, valid: string -> bool)
    requires !Truthy(idUser) || !valid(idUser.value)
    ensures ListUserComments(st1, idUser, valid).BadRequest?
    ensures ListUserComments(st1, idUser, valid) == ListUserComments(st2, idUser, valid)
  {
  }

  /** The list of a user's comments follows store order: listing a
      collection split in two lists the first part's comments, then the
      second's. With `ListUserCommentsSingle` this fixes the list, order
      included. */
  lemma ListUserCommentsInStoreOrder(st: Store, more: seq<Comment>, idUser: Option<string>, valid: string -> bool)
    requires ListUserComments(st, idUser, valid).Ok?
    ensures ListUserComments(st.(comments := st.comments + more), idUser, valid)
         == Ok(ListUserComments(st, idUser, valid).value
               + ListUserComments(st.(comments := more), idUser, valid).value)
  {
    SelectConcat(st.comments, more, ByUser(idUser.value));
  }

  /** A one-comment collection lists that comment exactly when it is the
      user's. */
  lemma ListUserCommentsSingle(st: Store, idUser: Option<string>, valid: string -> bool)
    requires ListUserComments(st, idUser, valid).Ok?
    requires |st.comments| == 1
    ensures ListUserComments(st, idUser, valid).value
         == (if st.comments[0].idUser == idUser.value then st.comments else [])
  {
    SelectCons(st.comments[0], [], ByUser(idUser.value));
    assert st.comments == [st.comments[0]] + [];
  }

  /** addComment refuses a missing `id_profile` whatever the body holds, and
      accepts any present ids without a format check. */
  lemma AddCommentValidatesFirst(st1: Store, st2: Store, idProfile: Option<string>, body: CommentBody, now: int, n1: Id, n2: Id)
    requires forall i :: 0 <= i < |st1.comments| ==> st1.comments[i].id != n1
    requires forall i :: 0 <= i < |st2.comments| ==> st2.comments[i].id != n2
    requires !Truthy(idProfile) || !Truthy(body.comment) || !Truthy(body.idUser)
    ensures AddComment(st1, idProfile, body, now, n1).store == st1
    ensures AddComment(st1, idProfile, body, now, n1).outcome == AddComment(st2, idProfile, body, now, n2).outcome
    ensures !Truthy(idProfile) ==> AddComment(st1, idProfile, body, now, n1).outcome == BadRequest(UrlIncorrect)
  {
  }

  /** A like refused for a missing or malformed id answers alike on any two
      stores and changes nothing. */
  lemma LikeValidatesFirst(st1: Store, st2: Store, idComment: Option<string>, idUser: Option<string>, valid: string -> bool)
    requires !BothPresent(idComment, idUser) || !valid(idUser.value) || !valid(idComment.value)
    ensures Like(st1, idComment, idUser, valid).outcome.BadRequest?
    ensures Like(st1, idComment, idUser, valid).store == st1
    ensures Like(st1, idComment, idUser, valid).outcome == Like(st2, idComment, idUser, valid).outcome
  {
  }

  /** Unlike checks presence only: a present id of any format reaches the
      store, where an unknown comment id is a 404. */
  lemma UnlikeValidatesFirst(st1: Store, st2: Store, idComment: Option<string>, idUser: Option<string>)
    ensures !BothPresent(idComment, idUser) ==>
      && Unlike(st1, idComment, idUser) == Step(BadRequest(ParametersMissing), st1)
      && Unlike(st1, idComment, idUser).outcome == Unlike(st2, idComment, idUser).outcome
    ensures BothPresent(idComment, idUser) ==> Unlike(st1, idComment, idUser).outcome != BadRequest(ParametersMissing)
  {
  }

  /** With no filter supplied the profile view holds exactly the profile's
      comments, reordered: as many as the store has for that profile. */
  lemma GetProfileUnfiltered(st: Store, id: Option<string>, q: Query, valid: string -> bool)
    requires !AnyFilter(q)
    requires GetProfile(st, id, q, valid).Ok?
    ensures multiset(GetProfile(st, id, q, valid).value.comments) == multiset(Select(st.comments, ByProfile(id.value)))
    ensures |GetProfile(st, id, q, valid).value.comments| == |Select(st.comments, ByProfile(id.value))|
  {
    var r := GetProfile(st, id, q, valid).value.comments;
    assert |r| == |multiset(r)|;
  }

  /** As written, a valid id without a profile never gets its 404: the
      handler throws at the attachment of the comments. */
  lemma GetProfileMissingProfileThrows(st: Store, id: Id, q: Query, valid: string -> bool)
    requires id != "" && valid(id) && id !in st.profiles
    ensures GetProfile(st, Some(id), q, valid) == Thrown
    ensures GetProfileChecked(st, Some(id), q, valid) == NotFound(ProfileNotFound)
  {
  }

  /** The corrected view differs from the one as written only where the
      written one throws, and, for an `mbti` filter, in the field it reads. */
  lemma GetProfileCheckedAgrees(st: Store, id: Option<string>, q: Query, valid: string -> bool)
    requires !Truthy(q.mbti)
    ensures !GetProfile(st, id, q, valid).Thrown? ==> GetProfileChecked(st, id, q, valid) == GetProfile(st, id, q, valid)
  {
    if Truthy(id) && valid(id.value) && id.value in st.profiles {
      var ofProfile := Select(st.comments, ByProfile(id.value));
      SelectAgree(ofProfile, MatchesQuery(q), MatchesQueryIntended(q));
      assert Filter(ofProfile, q) == FilterIntended(ofProfile, q);
    }
  }

  /** No comment carries an `mbti` field. */
  predicate NoMbtiField(st: Store)
  {
    forall c :: c in st.comments ==> c.mbti.None?
  }

  /** addComment never writes `mbti`, and the like counters leave it alone. */
  lemma NoMbtiFieldKept(st: Store, idProfile: Option<string>, body: CommentBody, now: int, newId: Id,
                        cid: Option<string>, uid: Option<string>, valid: string -> bool)
    requires forall i :: 0 <= i < |st.comments| ==> st.comments[i].id != newId
    requires NoMbtiField(st)
    ensures NoMbtiField(AddComment(st, idProfile, body, now, newId).store)
    ensures NoMbtiField(Like(st, cid, uid, valid).store)
    ensures NoMbtiField(Unlike(st, cid, uid).store)
  {
    var r := Like(st, cid, uid, valid);
    if r.outcome.Ok? {
      IncLikesKeepsNoMbti(st.comments, cid.value, 1);
      assert r.store.comments == IncLikes(st.comments, cid.value, 1);
    }
    var u := Unlike(st, cid, uid);
    if u.outcome.Ok? {
      IncLikesKeepsNoMbti(st.comments, cid.value, -1);
      assert u.store.comments == IncLikes(st.comments, cid.value, -1);
    }
  }

  /** `$inc` never gives a comment an `mbti` field. */
  lemma IncLikesKeepsNoMbti(cs: seq<Comment>, id: Id, delta: int)
    requires forall c :: c in cs ==> c.mbti.None?
    ensures forall c :: c in IncLikes(cs, id, delta) ==> c.mbti.None?
  {
    var r := IncLikes(cs, id, delta);
    forall c | c in r ensures c.mbti.None? {
      var j :| 0 <= j < |r| && r[j] == c;
      assert cs[j] in cs;
    }
  }

  /** As written, supplying `mbti` empties the profile view of every comment
      addComment created, since none of them has the `mbti` field the filter
      reads. */
  lemma MbtiFilterMatchesNothing(st: Store, id: Option<string>, q: Query, valid: string -> bool)
    requires NoMbtiField(st)
    requires Truthy(q.mbti)
    ensures GetProfile(st, id, q, valid).Ok? ==> GetProfile(st, id, q, valid).value.comments == []
  {
  }

  /** Read through `MTBI`, the `mbti` filter finds a new comment whose `MTBI`
      is the filter value. */
  lemma MbtiFilterIntendedFindsNewComment(st: Store, idProfile: Id, body: CommentBody, now: int, newId: Id, q: Query, valid: string -> bool)
    requires forall i :: 0 <= i < |st.comments| ==> st.comments[i].id != newId
    requires idProfile != "" && valid(idProfile) && idProfile in st.profiles
    requires Truthy(body.comment) && Truthy(body.idUser)
    requires Truthy(q.mbti) && body.MTBI == q.mbti
    requires !Truthy(q.zodiac) && !Truthy(q.enneagram)
    ensures var s2 := AddComment(st, Some(idProfile), body, now, newId).store;
      && GetProfileChecked(s2, Some(idProfile), q, valid).Ok?
      && GetProfile(s2, Some(idProfile), q, valid).Ok?
      && s2.comments[|st.comments|] in GetProfileChecked(s2, Some(idProfile), q, valid).value.comments
      && s2.comments[|st.comments|] !in GetProfile(s2, Some(idProfile), q, valid).value.comments
  {
    var s2 := AddComment(st, Some(idProfile), body, now, newId).store;
    var c := s2.comments[|st.comments|];
    assert c in s2.comments;
    assert c.idProfile == idProfile;
    assert MatchesIntended(c, q);
    assert !Matches(c, q);
  }

  /** Like, like, unlike, unlike of one pair, starting from a counter of
      `n`, answer `n + 1`, already liked, `n` and not liked. */
  predicate CycleAnswers(st: Store, c: Id, u: Id, valid: string -> bool, n: int)
  {
    var like1 := Like(st, Some(c), Some(u), valid);
    var like2 := Like(like1.store, Some(c), Some(u), valid);
    var unlike1 := Unlike(like2.store, Some(c), Some(u));
    var unlike2 := Unlike(unlike1.store, Some(c), Some(u));
    && like1.outcome == Ok(n + 1)
    && like2.outcome == BadRequest(AlreadyLiked)
    && unlike1.outcome == Ok(n)
    && unlike2.outcome == BadRequest(NotLiked)
  }

  /** Like, like, unlike, unlike of one pair whose user exists and has not
      liked the comment: the first like answers one more than the counter,
      the second is refused, the first unlike answers the original counter
      and the second is refused. */
  lemma LikeCycle(st: Store, c: Id, u: Id, valid: string -> bool)
    requires c != "" && u != "" && valid(c) && valid(u)
    requires u in st.users && !HasLiked(st.users, u, c)
    requires FindComment(st.comments, c).Some?
    ensures var likes := st.comments[FindComment(st.comments, c).value].likes;
      var like1 := Like(st, Some(c), Some(u), valid);
      var like2 := Like(like1.store, Some(c), Some(u), valid);
      var unlike1 := Unlike(like2.store, Some(c), Some(u));
      var unlike2 := Unlike(unlike1.store, Some(c), Some(u));
      && like1.outcome == Ok(likes + 1)
      && like2 == Step(BadRequest(AlreadyLiked), like1.store)
      && unlike1.outcome == Ok(likes)
      && unlike1.store.comments == st.comments
      && unlike2 == Step(BadRequest(NotLiked), unlike1.store)
    ensures CycleAnswers(st, c, u, valid, st.comments[FindComment(st.comments, c).value].likes)
  {
    var like1 := Like(st, Some(c), Some(u), valid);
    assert like1.outcome.Ok?;
    LikeTwiceRefused(st, c, u, valid);
    LikeUnlikeRoundTrip(st, c, u, valid);
    var s5 := Unlike(like1.store, Some(c), Some(u)).store;
    assert u in s5.users && Liked(s5.users[u]) == Liked(st.users[u]);
    assert !HasLiked(s5.users, u, c);
  }

  /** The comment body the route tests post. */
  function TestBody(u: Id): CommentBody
  {
    CommentBody(Some("Comment Test"), Some(u), None, None, None)
  }

  /** The store after the route tests' three creations: profile `p`, user
      `u`, and comment `c` by `u` on `p`. */
  function TestStore(st: Store, now: int, p: Id, u: Id, c: Id, f: ProfileFields): (r: Store)
    requires p !in st.profiles && u !in st.users
    requires forall i :: 0 <= i < |st.comments| ==> st.comments[i].id != c
    ensures p != "" && u != "" ==> r.comments == st.comments + [NewComment(c, "Comment Test", u, p, TestBody(u), now)]
    ensures p in r.profiles
    ensures u in r.users && r.users[u].likedComments.None?
  {
    var s1 := CreateProfile(st, f, now, p).store;
    var s2 := CreateUser(s1, Some("User Test"), now, u).store;
    assert s2.comments == st.comments;
    assert "Comment Test"[0] == 'C';
    AddComment(s2, Some(p), TestBody(u), now, c).store
  }

  /** After the three creations the new comment is the last one, the only one
      of its profile, and unliked by its new user. */
  lemma ScenarioSetup(st: Store, now: int, p: Id, u: Id, c: Id, f: ProfileFields)
    requires p != "" && u != "" && c != ""
    requires p !in st.profiles && u !in st.users
    requires forall i :: 0 <= i < |st.comments| ==> st.comments[i].id != c && st.comments[i].idProfile != p
    ensures var s3 := TestStore(st, now, p, u, c, f);
      && p in s3.profiles
      && u in s3.users && !HasLiked(s3.users, u, c)
      && FindComment(s3.comments, c) == Some(|st.comments|)
      && s3.comments[|st.comments|] == NewComment(c, "Comment Test", u, p, TestBody(u), now)
      && Select(s3.comments, ByProfile(p)) == [s3.comments[|st.comments|]]
  {
    var s3 := TestStore(st, now, p, u, c, f);
    var nc := NewComment(c, "Comment Test", u, p, TestBody(u), now);
    assert s3.comments == st.comments + [nc];
    assert FindComment(s3.comments, c) == Some(|st.comments|) by {
      assert forall j :: 0 <= j < |st.comments| ==> s3.comments[j].id != c;
    }
    SelectNone(st.comments, ByProfile(p));
    SelectConcat(st.comments, [nc], ByProfile(p));
    SelectCons(nc, [], ByProfile(p));
  }

  /** The like-then-unlike scenario of the route tests, on any store, with a
      read of the profile and a repeated like and unlike added: create a
      profile, a user and a comment, read the profile back, like the comment
      twice and unlike it twice. The view holds exactly the new comment, the
      first like answers 1, the second is refused, the first unlike answers 0
      and the second is refused. */
  lemma ScenarioFromTests(st: Store, now: int, p: Id, u: Id, c: Id, f: ProfileFields, valid: string -> bool)
    requires p != "" && u != "" && c != ""
    requires valid(p) && valid(u) && valid(c)
    requires p !in st.profiles && u !in st.users
    requires forall i :: 0 <= i < |st.comments| ==> st.comments[i].id != c && st.comments[i].idProfile != p
    ensures var s3 := TestStore(st, now, p, u, c, f);
      var view := GetProfile(s3, Some(p), Query(None, None, None, None), valid);
      && view.Ok?
      && view.value.comments == [NewComment(c, "Comment Test", u, p, TestBody(u), now)]
    ensures CycleAnswers(TestStore(st, now, p, u, c, f), c, u, valid, 0)
  {
    ScenarioView(st, now, p, u, c, f, valid);
    ScenarioLikes(st, now, p, u, c, f, valid);
  }

  /** The unfiltered profile view in that scenario is the new comment alone. */
  lemma ScenarioView(st: Store, now: int, p: Id, u: Id, c: Id, f: ProfileFields, valid: string -> bool)
    requires p != "" && u != "" && c != ""
    requires valid(p) && valid(u) && valid(c)
    requires p !in st.profiles && u !in st.users
    requires forall i :: 0 <= i < |st.comments| ==> st.comments[i].id != c && st.comments[i].idProfile != p
    ensures var s3 := TestStore(st, now, p, u, c, f);
      var view := GetProfile(s3, Some(p), Query(None, None, None, None), valid);
      && view.Ok?
      && view.value.comments == [NewComment(c, "Comment Test", u, p, TestBody(u), now)]
  {
    ScenarioSetup(st, now, p, u, c, f);
    var s3 := TestStore(st, now, p, u, c, f);
    SingleCommentView(s3, p, s3.comments[|st.comments|], valid);
  }

  /** A present, valid profile with exactly one comment is answered, without
      filters, with that one comment. */
  lemma SingleCommentView(st: Store, id: Id, nc: Comment, valid: string -> bool)
    requires id != "" && valid(id) && id in st.profiles
    requires Select(st.comments, ByProfile(id)) == [nc]
    ensures GetProfile(st, Some(id), Query(None, None, None, None), valid) == Ok(ProfileView(st.profiles[id], [nc]))
  {
    var q := Query(None, None, None, None);
    assert ProfileComments(st, id, q) == [nc] by {
      assert Filter([nc], q) == [nc];
      assert SortByCreated([nc], false) == [nc];
    }
  }

  /** Like, like, unlike, unlike in that scenario answers 1, already liked, 0
      and not liked. */
  lemma ScenarioLikes(st: Store, now: int, p: Id, u: Id, c: Id, f: ProfileFields, valid: string -> bool)
    requires p != "" && u != "" && c != ""
    requires valid(p) && valid(u) && valid(c)
    requires p !in st.profiles && u !in st.users
    requires forall i :: 0 <= i < |st.comments| ==> st.comments[i].id != c && st.comments[i].idProfile != p
    ensures CycleAnswers(TestStore(st, now, p, u, c, f), c, u, valid, 0)
  {
    var s3 := TestStore(st, now, p, u, c, f);
    ScenarioUnliked(st, now, p, u, c, f);
    LikeCycle(s3, c, u, valid);
  }

  /** In that scenario the new user exists and has not liked the new comment,
      which is in the store with no likes. */
  lemma ScenarioUnliked(st: Store, now: int, p: Id, u: Id, c: Id, f: ProfileFields)
    requires p != "" && u != "" && c != ""
    requires p !in st.profiles && u !in st.users
    requires forall i :: 0 <= i < |st.comments| ==> st.comments[i].id != c && st.comments[i].idProfile != p
    ensures var s3 := TestStore(st, now, p, u, c, f);
      && u in s3.users && !HasLiked(s3.users, u, c)
      && FindComment(s3.comments, c).Some?
      && s3.comments[FindComment(s3.comments, c).value].likes == 0
  {
    ScenarioSetup(st, now, p, u, c, f);
  }
}

=== FILE: routes.dfy ===
/**
 The seven route handlers of routes/profile.js. Each handler takes the store
 and the request's inputs and returns its outcome; the handlers that write
 also return the new store. `ObjectId.isValid` is the parameter `valid`, the
 clock is `now`, and the id the store generates on insert is `newId`.
 */
module ProfileRoutes {
  import opened Documents
  import opened Seqs
  import opened Store
  import opened CommentQuery

  /** The response a handler sends: 400, 404, a 200/201 with its payload, or
      none at all because the handler threw outside any `try`. */
  datatype Outcome<+T> = BadRequest(reason: Reason) | NotFound(reason: Reason) | Ok(value: T) | Thrown

  /** A writing handler's outcome and the store it leaves behind. */
  datatype Step<+T> = Step(outcome: Outcome<T>, store: Store)

  /** Why a request was refused. */
  datatype Reason =
    | IdRequired | IdInvalid | ProfileNotFound | NameRequired | UrlIncorrect
    | LostInformation | ParametersMissing | CommentNotFound | AlreadyLiked | NotLiked

  /** The text each refusal carries in its JSON body. */
  function Message(r: Reason): (m: string)
    ensures m != ""
  {
    match r
    case IdRequired => "Bad Request, id must be requested"
    case IdInvalid => "Bad Request, id is not a valid"
    case ProfileNotFound => "Not Found"
    case NameRequired => "Bad Request, name must be requested"
    case UrlIncorrect => "Bad Request, URL is incorrect"
    case LostInformation => "Bad Request, lost crucial information"
    case ParametersMissing => "Parameters missing"
    case CommentNotFound => "Comment not found."
    case AlreadyLiked => "You already liked this comment"
    case NotLiked => "You have not liked this comment before."
  }

  /** No two refusals carry the same text, so a client can tell them apart
      by message alone. */
  lemma MessagesDistinct(a: Reason, b: Reason)
    ensures a != b ==> Message(a) != Message(b)
  {
  }

  /** The profile with its `comments` attached, as handed to the view. */
  datatype ProfileView = ProfileView(profile: Profile, comments: seq<Comment>)

  /** The comments of profile `id`, filtered and sorted as the query asks. */
  function ProfileComments(st: Store, id: Id, q: Query): seq<Comment>
  {
    SortByCreated(Filter(Select(st.comments, ByProfile(id)), q), Ascending(q))
  }

  /** `GET /:id?` as written. Both checks on `id` come first. The comments
      are then attached to whatever `findOne` returned, so a missing profile
      makes the handler throw before it reaches its own 404 check: that
      branch is unreachable. */
  function GetProfile(st: Store, id: Option<string>, q: Query, valid: string -> bool): (r: Outcome<ProfileView>)
    ensures !Truthy(id) ==> r == BadRequest(IdRequired)
    ensures Truthy(id) && !valid(id.value) ==> r == BadRequest(IdInvalid)
    ensures !r.NotFound?
    ensures r.Thrown? <==> Truthy(id) && valid(id.value) && id.value !in st.profiles
    ensures r.Ok? <==> Truthy(id) && valid(id.value) && id.value in st.profiles
    ensures r.Ok? ==>
      && id.value in st.profiles
      && r.value.profile == st.profiles[id.value]
      && SortedBy(r.value.comments, Ascending(q))
      && multiset(r.value.comments) == multiset(Filter(Select(st.comments, ByProfile(id.value)), q))
      && forall c :: c in r.value.comments <==> c in st.comments && c.idProfile == id.value && Matches(c, q)
  {
    if !Truthy(id) then BadRequest(IdRequired)
    else if !valid(id.value) then BadRequest(IdInvalid)
    else if id.value !in st.profiles then Thrown
    else
      var r := ProfileComments(st, id.value, q);
      assert forall c :: c in r <==> c in multiset(r);
      Ok(ProfileView(st.profiles[id.value], r))
  }

  /** `GET /:id?` with the existence check moved ahead of the comment
      attachment and the `mbti` filter reading the stored `MTBI` field. */
  function GetProfileChecked(st: Store, id: Option<string>, q: Query, valid: string -> bool): (r: Outcome<ProfileView>)
    ensures !Truthy(id) ==> r == BadRequest(IdRequired)
    ensures Truthy(id) && !valid(id.value) ==> r == BadRequest(IdInvalid)
    ensures !r.Thrown?
    ensures r.NotFound? <==> Truthy(id) && valid(id.value) && id.value !in st.profiles
    ensures r.Ok? <==> Truthy(id) && valid(id.value) && id.value in st.profiles
    ensures r.Ok? ==>
      && id.value in st.profiles
      && r.value.profile == st.profiles[id.value]
      && SortedBy(r.value.comments, Ascending(q))
      && multiset(r.value.comments) == multiset(FilterIntended(Select(st.comments, ByProfile(id.value)), q))
      && forall c :: c in r.value.comments <==> c in st.comments && c.idProfile == id.value && MatchesIntended(c, q)
  {
    if !Truthy(id) then BadRequest(IdRequired)
    else if !valid(id.value) then BadRequest(IdInvalid)
    else if id.value !in st.profiles then NotFound(ProfileNotFound)
    else
      var r := SortByCreated(FilterIntended(Select(st.comments, ByProfile(id.value)), q), Ascending(q));
      assert forall c :: c in r <==> c in multiset(r);
      Ok(ProfileView(st.profiles[id.value], r))
  }

  /** The body of `POST /profile`. */
  datatype ProfileFields = ProfileFields(
    name: Option<string>,
    description: Option<string>,
    mbti: Option<string>,
    enneagram: Option<string>,
    variant: Option<string>,
    tritype: Option<string>,
    socionics: Option<string>,
    sloan: Option<string>,
    psyche: Option<string>)

  /** `POST /profile`: no validation; every attribute is stored as sent, the
      image is the fixed default and `created_at` is the current time. */
  function CreateProfile(st: Store, f: ProfileFields, now: int, newId: Id): (r: Step<Id>)
    requires newId !in st.profiles
    ensures r.outcome == Ok(newId)
    ensures r.store.users == st.users && r.store.comments == st.comments
    ensures r.store.profiles.Keys == st.profiles.Keys + {newId}
    ensures forall p :: p in st.profiles ==> r.store.profiles[p] == st.profiles[p]
    ensures var p := r.store.profiles[newId];
      && p.image == DefaultImage && p.createdAt == now
      && p.name == f.name && p.description == f.description && p.mbti == f.mbti
      && p.enneagram == f.enneagram && p.variant == f.variant && p.tritype == f.tritype
      && p.socionics == f.socionics && p.sloan == f.sloan && p.psyche == f.psyche
  {
    var p := Profile(f.name, f.description, f.mbti, f.enneagram, f.variant, f.tritype,
                     f.socionics, f.sloan, f.psyche, DefaultImage, now);
    Step(Ok(newId), st.(profiles := st.profiles[newId := p]))
  }

  /** `POST /user`: a falsy name is refused; otherwise a user without a
      `likedComments` field is inserted. */
  function CreateUser(st: Store, name: Option<string>, now: int, newId: Id): (r: Step<Id>)
    requires newId !in st.users
    ensures !Truthy(name) <==> r.outcome == BadRequest(NameRequired)
    ensures !Truthy(name) ==> r.store == st
    ensures Truthy(name) ==>
      && r.outcome == Ok(newId)
      && r.store.profiles == st.profiles && r.store.comments == st.comments
      && r.store.users.Keys == st.users.Keys + {newId}
      && (forall u :: u in st.users ==> r.store.users[u] == st.users[u])
      && r.store.users[newId].name == name.value
      && r.store.users[newId].createdAt == now
      && r.store.users[newId].likedComments.None?
  {
    if !Truthy(name) then Step(BadRequest(NameRequired), st)
    else Step(Ok(newId), st.(users := st.users[newId := User(name.value, now, None)]))
  }

  /** The body of `POST /:id_profile/addComment`. */
  datatype CommentBody = CommentBody(
    comment: Option<string>,
    idUser: Option<string>,
    MTBI: Option<string>,
    enneagram: Option<string>,
    zodiac: Option<string>)

  /** The document addComment inserts: zero likes, the classifiers copied as
      sent, and no `mbti` field. */
  function NewComment(newId: Id, text: string, idUser: Id, idProfile: Id, body: CommentBody, now: int): (c: Comment)
    ensures c.id == newId && c.text == text && c.idUser == idUser && c.idProfile == idProfile
    ensures c.createdAt == now && c.likes == 0
    ensures c.MTBI == body.MTBI && c.mbti.None?
    ensures c.enneagram == body.enneagram && c.zodiac == body.zodiac
  {
    Comment(newId, text, idUser, idProfile, now, body.MTBI, None, body.enneagram, body.zodiac, 0)
  }

  /** `POST /:id_profile/addComment`: the URL parameter is checked first, then
      the two required body fields; neither id is checked for format nor
      looked up. */
  function AddComment(st: Store, idProfile: Option<string>, body: CommentBody, now: int, newId: Id): (r: Step<Id>)
    requires forall i :: 0 <= i < |st.comments| ==> st.comments[i].id != newId
    ensures !Truthy(idProfile) <==> r.outcome == BadRequest(UrlIncorrect)
    ensures Truthy(idProfile) && (!Truthy(body.comment) || !Truthy(body.idUser)) <==>
      r.outcome == BadRequest(LostInformation)
    ensures r.outcome.Ok? <==> Truthy(idProfile) && Truthy(body.comment) && Truthy(body.idUser)
    ensures !r.outcome.Ok? ==> r.store == st
    ensures r.outcome.Ok? ==>
      && r.outcome.value == newId
      && r.store.profiles == st.profiles && r.store.users == st.users
      && |r.store.comments| == |st.comments| + 1
      && r.store.comments[..|st.comments|] == st.comments
      && var c := r.store.comments[|st.comments|];
         && c.id == newId && c.likes == 0 && c.createdAt == now && c.mbti.None?
         && c.text == body.comment.value && c.idUser == body.idUser.value && c.idProfile == idProfile.value
         && c.MTBI == body.MTBI && c.enneagram == body.enneagram && c.zodiac == body.zodiac
  {
    if !Truthy(idProfile) then Step(BadRequest(UrlIncorrect), st)
    else if !Truthy(body.comment) || !Truthy(body.idUser) then Step(BadRequest(LostInformation), st)
    else
      var c := NewComment(newId, body.comment.value, body.idUser.value, idProfile.value, body, now);
      Step(Ok(newId), st.(comments := st.comments + [c]))
  }

  /** `GET /:id_user/comments`: the user's comments in store order, neither
      filtered nor sorted. */
  function ListUserComments(st: Store, idUser: Option<string>, valid: string -> bool): (r: Outcome<seq<Comment>>)
    ensures !Truthy(idUser) ==> r == BadRequest(UrlIncorrect)
    ensures Truthy(idUser) && !valid(idUser.value) ==> r == BadRequest(IdInvalid)
    ensures r.Ok? || r.BadRequest?
    ensures r.Ok? <==> Truthy(idUser) && valid(idUser.value)
    ensures r.Ok? ==>
      && (forall c :: c in r.value <==> c in st.comments && c.idUser == idUser.value)
      && multiset(r.value) <= multiset(st.comments)
  {
    if !Truthy(idUser) then BadRequest(UrlIncorrect)
    else if !valid(idUser.value) then BadRequest(IdInvalid)
    else Ok(Select(st.comments, ByUser(idUser.value)))
  }

  /** Both like and unlike refuse a request with a missing or empty id. */
  predicate BothPresent(idComment: Option<string>, idUser: Option<string>)
  {
    Truthy(idComment) && Truthy(idUser)
  }

  /** The store after an accepted like: `$inc` by one on the comment, then
      `$push` onto the user. */
  function LikedStore(st: Store, cid: Id, uid: Id): Store
  {
    st.(comments := IncLikes(st.comments, cid, 1), users := PushLiked(st.users, uid, cid))
  }

  /** The store after an accepted unlike: `$inc` by minus one on the comment,
      then `$pull` from the user. */
  function UnlikedStore(st: Store, cid: Id, uid: Id): Store
  {
    st.(comments := IncLikes(st.comments, cid, -1), users := PullLiked(st.users, uid, cid))
  }

  /** `POST /comment/:id_comment/like/:id_user`. Presence, then format, then
      the comment's existence, then the already-liked guard; only then the
      `$inc` on the comment and the `$push` on the user. The reply is the
      counter read before the update, plus one. */
  function Like(st: Store, idComment: Option<string>, idUser: Option<string>, valid: string -> bool): (r: Step<int>)
    ensures !r.outcome.Ok? ==> r.store == st
    ensures r.outcome == BadRequest(ParametersMissing) <==> !BothPresent(idComment, idUser)
    ensures r.outcome == BadRequest(IdInvalid) <==>
      BothPresent(idComment, idUser) && (!valid(idUser.value) || !valid(idComment.value))
    ensures r.outcome.NotFound? ==> r.outcome == NotFound(CommentNotFound)
    ensures r.outcome == NotFound(CommentNotFound) <==>
      && BothPresent(idComment, idUser) && valid(idUser.value) && valid(idComment.value)
      && FindComment(st.comments, idComment.value).None?
    ensures r.outcome == BadRequest(AlreadyLiked) <==>
      && BothPresent(idComment, idUser) && valid(idUser.value) && valid(idComment.value)
      && FindComment(st.comments, idComment.value).Some?
      && HasLiked(st.users, idUser.value, idComment.value)
    ensures !r.outcome.Thrown?
    ensures r.outcome.Ok? <==>
      && BothPresent(idComment, idUser) && valid(idUser.value) && valid(idComment.value)
      && FindComment(st.comments, idComment.value).Some?
      && !HasLiked(st.users, idUser.value, idComment.value)
    ensures r.outcome.Ok? ==>
      && FindComment(st.comments, idComment.value).Some?
      && !HasLiked(st.users, idUser.value, idComment.value)
      && r.store == LikedStore(st, idComment.value, idUser.value)
  {
    if !BothPresent(idComment, idUser) then Step(BadRequest(ParametersMissing), st)
    else
      var cid, uid := idComment.value, idUser.value;
      if !valid(uid) || !valid(cid) then Step(BadRequest(IdInvalid), st)
      else
        match FindComment(st.comments, cid)
        case None => Step(NotFound(CommentNotFound), st)
        case Some(k) =>
          if HasLiked(st.users, uid, cid) then Step(BadRequest(AlreadyLiked), st)
          else Step(Ok(st.comments[k].likes + 1), LikedStore(st, cid, uid))
  }

  /** An accepted like replies with the pre-read counter plus one, moves that
      comment's counter by exactly one, appends the id once to the user's
      list when the user exists, and leaves every other comment, user and
      profile as it was; an unknown user leaves the users untouched. */
  lemma LikeSuccess(st: Store, cid: Id, uid: Id, valid: string -> bool)
    requires Like(st, Some(cid), Some(uid), valid).outcome.Ok?
    ensures var r := Like(st, Some(cid), Some(uid), valid);
      && FindComment(st.comments, cid).Some?
      && var k := FindComment(st.comments, cid).value;
      && r.outcome.value == st.comments[k].likes + 1
      && |r.store.comments| == |st.comments|
      && r.store.comments[k] == st.comments[k].(likes := st.comments[k].likes + 1)
      && (forall j :: 0 <= j < |st.comments| && j != k ==> r.store.comments[j] == st.comments[j])
      && r.store.profiles == st.profiles
      && r.store.users.Keys == st.users.Keys
      && (forall v :: v in st.users && v != uid ==> r.store.users[v] == st.users[v])
      && (uid in st.users ==> Liked(r.store.users[uid]) == Liked(st.users[uid]) + [cid])
      && (uid in st.users ==> multiset(Liked(r.store.users[uid]))[cid] == 1)
      && (uid !in st.users ==> r.store.users == st.users)
  {
    if uid in st.users {
      assert multiset(Liked(st.users[uid]))[cid] == 0;
    }
  }

  /** `POST /comment/:id_comment/unlike/:id_user`. Presence only (no format
      check), then the comment's existence, then the has-liked guard; only
      then the `$inc` by -1 (no floor at zero) and the `$pull`. The reply is
      the counter read before the update, minus one. */
  function Unlike(st: Store, idComment: Option<string>, idUser: Option<string>): (r: Step<int>)
    ensures !r.outcome.Ok? ==> r.store == st
    ensures r.outcome == BadRequest(ParametersMissing) <==> !BothPresent(idComment, idUser)
    ensures r.outcome.NotFound? ==> r.outcome == NotFound(CommentNotFound)
    ensures r.outcome == NotFound(CommentNotFound) <==>
      BothPresent(idComment, idUser) && FindComment(st.comments, idComment.value).None?
    ensures r.outcome == BadRequest(NotLiked) <==>
      && BothPresent(idComment, idUser)
      && FindComment(st.comments, idComment.value).Some?
      && !HasLiked(st.users, idUser.value, idComment.value)
    ensures !r.outcome.Thrown?
    ensures r.outcome.Ok? <==>
      && BothPresent(idComment, idUser)
      && FindComment(st.comments, idComment.value).Some?
      && HasLiked(st.users, idUser.value, idComment.value)
    ensures r.outcome.Ok? ==>
      && FindComment(st.comments, idComment.value).Some?
      && HasLiked(st.users, idUser.value, idComment.value)
      && r.store == UnlikedStore(st, idComment.value, idUser.value)
  {
    if !BothPresent(idComment, idUser) then Step(BadRequest(ParametersMissing), st)
    else
      var cid, uid := idComment.value, idUser.value;
      match FindComment(st.comments, cid)
      case None => Step(NotFound(CommentNotFound), st)
      case Some(k) =>
        if !HasLiked(st.users, uid, cid) then Step(BadRequest(NotLiked), st)
        else Step(Ok(st.comments[k].likes - 1), UnlikedStore(st, cid, uid))
  }

  /** An accepted unlike replies with the pre-read counter minus one, with no
      floor at zero, moves that comment's counter by exactly minus one,
      removes every occurrence of the id from the user's list, and leaves
      every other comment, user and profile as it was. */
  lemma UnlikeSuccess(st: Store, cid: Id, uid: Id)
    requires Unlike(st, Some(cid), Some(uid)).outcome.Ok?
    ensures var r := Unlike(st, Some(cid), Some(uid));
      && FindComment(st.comments, cid).Some?
      && uid in st.users
      && var k := FindComment(st.comments, cid).value;
      && r.outcome.value == st.comments[k].likes - 1
      && |r.store.comments| == |st.comments|
      && r.store.comments[k] == st.comments[k].(likes := st.comments[k].likes - 1)
      && (forall j :: 0 <= j < |st.comments| && j != k ==> r.store.comments[j] == st.comments[j])
      && r.store.profiles == st.profiles
      && r.store.users.Keys == st.users.Keys
      && (forall v :: v in st.users && v != uid ==> r.store.users[v] == st.users[v])
      && Liked(r.store.users[uid]) == RemoveAll(Liked(st.users[uid]), cid)
      && cid !in Liked(r.store.users[uid])
      && r.store.users[uid].likedComments.Some?
      && r.store.users[uid].name == st.users[uid].name
      && r.store.users[uid].createdAt == st.users[uid].createdAt
  {
    assert cid in Liked(st.users[uid]);
    assert st.users[uid].likedComments.Some?;
  }
}

=== FILE: seqs.dfy ===
/**
 Order-preserving selection and removal over sequences: the two list
 operations the store performs on documents and on `likedComments`.
 */
module Seqs {

  /** The elements of `s` satisfying `p`, in their original order. */
  function Select<T(==,!new)>(s: seq<T>, p: T -> bool): (r: seq<T>)
    ensures |r| <= |s|
    ensures forall x :: x in r <==> x in s && p(x)
    ensures multiset(r) <= multiset(s)
  {
    if |s| == 0 then []
    else
      assert s == [s[0]] + s[1..];
      if p(s[0]) then [s[0]] + Select(s[1..], p) else Select(s[1..], p)
  }

  /** Selection distributes over concatenation, so it never reorders what it
      keeps. */
  lemma {:induction false} SelectConcat<T(!new)>(a: seq<T>, b: seq<T>, p: T -> bool)
    ensures Select(a + b, p) == Select(a, p) + Select(b, p)
  {
    if |a| == 0 {
      assert a + b == b;
    } else {
      assert (a + b)[1..] == a[1..] + b;
      SelectConcat(a[1..], b, p);
    }
  }

  /** Selection looks at the head and then at the rest. */
  lemma SelectCons<T(!new)>(x: T, s: seq<T>, p: T -> bool)
    ensures Select([x] + s, p) == (if p(x) then [x] else []) + Select(s, p)
  {
    assert ([x] + s)[0] == x;
    assert ([x] + s)[1..] == s;
  }

  /** A head that `p` rejects, or that `p` accepts while `x` is rejected, can
      be moved in front of `x` without changing what `p` selects. */
  lemma SelectPastHead<T(!new)>(h: T, x: T, rest: seq<T>, tail: seq<T>, p: T -> bool)
    requires !(p(h) && p(x))
    requires Select(rest, p) == (if p(x) then [x] else []) + Select(tail, p)
    ensures Select([h] + rest, p) == (if p(x) then [x] else []) + Select([h] + tail, p)
  {
    SelectCons(h, rest, p);
    SelectCons(h, tail, p);
  }

  /** Two predicates that agree on the elements of `s` select alike. */
  lemma {:induction false} SelectAgree<T(!new)>(s: seq<T>, p: T -> bool, p': T -> bool)
    requires forall i :: 0 <= i < |s| ==> p(s[i]) == p'(s[i])
    ensures Select(s, p) == Select(s, p')
  {
    if |s| > 0 {
      SelectAgree(s[1..], p, p');
    }
  }

  /** Selecting by a predicate every element satisfies keeps the sequence. */
  lemma {:induction false} SelectAll<T(!new)>(s: seq<T>, p: T -> bool)
    requires forall i :: 0 <= i < |s| ==> p(s[i])
    ensures Select(s, p) == s
  {
    if |s| > 0 {
      SelectAll(s[1..], p);
    }
  }

  /** Selecting by a predicate no element satisfies leaves nothing. */
  lemma {:induction false} SelectNone<T(!new)>(s: seq<T>, p: T -> bool)
    requires forall i :: 0 <= i < |s| ==> !p(s[i])
    ensures Select(s, p) == []
  {
    if |s| > 0 {
      SelectNone(s[1..], p);
    }
  }

  /** `s` with every occurrence of `x` removed, the rest in order: MongoDB's
      `$pull` of a scalar from an array. */
  function RemoveAll<T(==,!new)>(s: seq<T>, x: T): (r: seq<T>)
    ensures x !in r
    ensures forall y :: y != x ==> (y in r <==> y in s)
    ensures multiset(r) == multiset(s)[x := 0]
    ensures r == Select(s, (y: T) => y != x)
  {
    if |s| == 0 then []
    else
      assert s == [s[0]] + s[1..];
      if s[0] == x then RemoveAll(s[1..], x) else [s[0]] + RemoveAll(s[1..], x)
  }

  /** Appending `x` to a sequence without it and then removing every `x`
      gives the sequence back: `$push` followed by `$pull`. */
  lemma {:induction false} RemoveAllAfterAppend<T(!new)>(s: seq<T>, x: T)
    requires x !in s
    ensures RemoveAll(s + [x], x) == s
  {
    if |s| == 0 {
      assert [x][1..] == [];
    } else {
      assert (s + [x])[0] == s[0];
      assert (s + [x])[1..] == s[1..] + [x];
      RemoveAllAfterAppend(s[1..], x);
      assert s == [s[0]] + s[1..];
    }
  }

  /** No element occurs twice. */
  predicate NoDuplicates<T(==)>(s: seq<T>)
  {
    forall i, j :: 0 <= i < j < |s| ==> s[i] != s[j]
  }
}

=== FILE: store.dfy ===
/**
 The document store as the route handlers see it, and the MongoDB operators
 they use, as pure functions: `findOne`/`find`, `insertOne`, and `updateOne`
 with `$inc`, `$push` and `$pull`.
 */
module Store {
  import opened Documents
  import opened Seqs

  /** The three collections. Comments keep the store's natural order, which
      is what `find(...).toArray()` returns. */
  datatype Store = Store(profiles: map<Id, Profile>, users: map<Id, User>, comments: seq<Comment>)

  /** `find({ id_profile: id })` on the comments collection. */
  function ByProfile(id: Id): Comment -> bool
  {
    (c: Comment) => c.idProfile == id
  }

  /** `find({ id_user: id })` on the comments collection. */
  function ByUser(id: Id): Comment -> bool
  {
    (c: Comment) => c.idUser == id
  }

  /** `findOne({ _id: id })` on the comments collection: the position of the
      first comment with that id, if there is one. */
  function FindComment(cs: seq<Comment>, id: Id): (r: Option<nat>)
    ensures r.Some? ==> r.value < |cs| && cs[r.value].id == id
    ensures r.Some? ==> forall j :: 0 <= j < r.value ==> cs[j].id != id
    ensures r.None? <==> forall j :: 0 <= j < |cs| ==> cs[j].id != id
  {
    if |cs| == 0 then None
    else if cs[0].id == id then Some(0)
    else
      match FindComment(cs[1..], id)
      case None => None
      case Some(k) => Some(k + 1)
  }

  /** `updateOne({ _id: id }, { $inc: { likes: delta } })`: the first comment
      with that id has its counter moved by `delta`; a missing id matches
      nothing and changes nothing. */
  function IncLikes(cs: seq<Comment>, id: Id, delta: int): (r: seq<Comment>)
    ensures |r| == |cs|
    ensures forall j :: 0 <= j < |cs| ==> r[j].id == cs[j].id
    ensures FindComment(cs, id).None? ==> r == cs
    ensures FindComment(cs, id).Some? ==>
      var k := FindComment(cs, id).value;
      && r[k] == cs[k].(likes := cs[k].likes + delta)
      && forall j :: 0 <= j < |cs| && j != k ==> r[j] == cs[j]
  {
    if |cs| == 0 then []
    else if cs[0].id == id then [cs[0].(likes := cs[0].likes + delta)] + cs[1..]
    else [cs[0]] + IncLikes(cs[1..], id, delta)
  }

  /** `findOne({ _id: uid, likedComments: cid })` on the users collection: the
      user exists and its liked list holds `cid`. */
  predicate HasLiked(users: map<Id, User>, uid: Id, cid: Id): (b: bool)
    ensures b <==> uid in users && cid in Liked(users[uid])
  {
    uid in users && users[uid].likedComments.Some? && cid in users[uid].likedComments.value
  }

  /** `updateOne({ _id: uid }, { $push: { likedComments: cid } })`: appends
      `cid`, creating the list when the field is absent; a missing user is
      left alone. */
  function PushLiked(users: map<Id, User>, uid: Id, cid: Id): (r: map<Id, User>)
    ensures r.Keys == users.Keys
    ensures forall v :: v in users && v != uid ==> r[v] == users[v]
    ensures uid in users ==>
      && r[uid].likedComments == Some(Liked(users[uid]) + [cid])
      && r[uid].name == users[uid].name
      && r[uid].createdAt == users[uid].createdAt
  {
    if uid in users then users[uid := users[uid].(likedComments := Some(Liked(users[uid]) + [cid]))]
    else users
  }

  /** `updateOne({ _id: uid }, { $pull: { likedComments: cid } })`: removes
      every occurrence of `cid`; a missing user or a missing field is left
      alone. */
  function PullLiked(users: map<Id, User>, uid: Id, cid: Id): (r: map<Id, User>)
    ensures r.Keys == users.Keys
    ensures forall v :: v in users && v != uid ==> r[v] == users[v]
    ensures uid in users ==> Liked(r[uid]) == RemoveAll(Liked(users[uid]), cid)
    ensures uid in users ==> !HasLiked(r, uid, cid)
    ensures uid in users && users[uid].likedComments.None? ==> r == users
    ensures uid in users && users[uid].likedComments.Some? ==>
      && r[uid].likedComments.Some?
      && r[uid].name == users[uid].name
      && r[uid].createdAt == users[uid].createdAt
  {
    if uid in users && users[uid].likedComments.Some? then
      users[uid := users[uid].(likedComments := Some(RemoveAll(users[uid].likedComments.value, cid)))]
    else users
  }

  /** `findOne` by id only looks at ids: two collections with the same ids
      in the same order answer it alike. */
  lemma {:induction false} FindCommentByIds(a: seq<Comment>, b: seq<Comment>, id: Id)
    requires |a| == |b|
    requires forall j :: 0 <= j < |a| ==> a[j].id == b[j].id
    ensures FindComment(a, id) == FindComment(b, id)
  {
    if |a| > 0 && a[0].id != id {
      FindCommentByIds(a[1..], b[1..], id);
    }
  }

  /** `$inc` by `delta` and then by `-delta` on the same id restores the
      collection. */
  lemma IncLikesInverse(cs: seq<Comment>, id: Id, delta: int)
    ensures IncLikes(IncLikes(cs, id, delta), id, -delta) == cs
  {
    var once := IncLikes(cs, id, delta);
    FindCommentByIds(cs, once, id);
    var twice := IncLikes(once, id, -delta);
    assert |twice| == |cs|;
    assert forall j :: 0 <= j < |cs| ==> twice[j] == cs[j];
  }
}
